=== FILE: README.md ===
# Unix terminal input for a line editor, in Dafny

This project models the Unix terminal backend of rustyline (`src/tty/unix.rs`),
the layer a line editor uses to read keys from a terminal in raw mode. It covers:

- the escape-sequence resolver (`escape_sequence`). This is a fixed decision tree that turns the
  characters after an ESC into a named key, an Alt chord or `Unknown`. The model is
  `Escape.Resolve`, and it is proved equal to a table-driven walk (`EscapeTable`);
- key dispatch (`next_key`). A character is mapped by `char_to_key_press`. An Esc is then
  told apart from the start of a sequence by a readiness poll. `Reader.Decode` is the
  caller's loop of repeated `next_key` calls;
- the retrying read of standard input (`StdinRaw::read`);
- the deny-list of terminal types (`is_unsupported_term`), terminal construction, and the
  window-size fallback;
- the raw-mode attribute derivation (`enable_raw_mode`) and restoring the saved mode;
- the SIGWINCH flag: the handler's store and the compare-and-swap poll `sigwinch`.

The input stream is a `seq<char>` plus an `end` value. `end` is what `next_char` reports
once the characters run out: `Eof`, the read error, or `Decoding` for bytes that are not UTF-8. Results of the operating system
are parameters: the poll outcome, the `tcgetattr`/`tcsetattr` outcomes, the ioctl result,
the successive `read(2)` outcomes and `isatty`. `char_to_key_press` is a function parameter
`toKey`. Termios constants and `ENOTTY` use their Linux values.

Details of the code worth noting:
- the resolver examines up to five characters after ESC (`[1;3A`, `src/tty/unix.rs:110-116`);
- ESC followed by backspace or delete gives the character 0x08 or 0x7F itself with Alt, not a
  named key (`src/tty/unix.rs:174`, `:185`);
- the SIGWINCH handler is installed only when standard output is a tty as well as standard
  input (`src/tty/unix.rs:259`).

## Model

| member | source | states |
|---|---|---|
| Escape.Resolve | src/tty/unix.rs:104-191 | Resolving consumes between 1 and 5 characters and never more than there are; it fails only when fewer than 5 characters are left, and then with the stream's own end condition |
| EscapeTable.WalkMeaning | src/tty/unix.rs:104-191 | Starting from a pending prefix, the table walk stops either on a recognised sequence with its table key, or with `Unknown` on the first character that makes the input neither an entry nor a pending prefix; everything before the last consumed character was pending |
| EscapeTable.ResolveIsTableDriven | src/tty/unix.rs:104-191 | The nested matches of `escape_sequence` give the same result as the table-driven walk, on every input |
| EscapeTable.PendingIsProperPrefixes | src/tty/unix.rs:104-191 | The states in which the resolver reads on are exactly the proper prefixes of recognised sequences |
| EscapeTable.PendingHasNoEntry | src/tty/unix.rs:104-191 | No recognised sequence is a prefix of a pending one, so the table is prefix-free and matching never needs to backtrack |
| EscapeTable.ResolveRecognisesEveryEntry | src/tty/unix.rs:104-191 | Every recognised sequence resolves to its table key and consumes exactly its own length, whatever follows |
| EscapeTable.ResolveMeaning | src/tty/unix.rs:104-191 | A resolved key is either the table entry for the consumed characters, or `Unknown` after a pending prefix plus one character that leads nowhere |
| EscapeTable.ResolveRunsOutOnlyMidSequence | src/tty/unix.rs:104-191 | The resolver reports end of input (via `next_char`) exactly when the input stops inside a recognised sequence, and never yields `Unknown` in that case |
| EscapeTable.ResolveLooksOnlyAtConsumed | src/tty/unix.rs:104-191 | The result depends only on the consumed characters: any input agreeing on them, with any continuation and any end condition, resolves the same way |
| EscapeFamilies.CursorKeySequences | src/tty/unix.rs:157-172 | `[X` and `OX` for X in A,B,C,D,F,H give Up, Down, Right, Left, End, Home and consume 2 characters |
| EscapeFamilies.ModifiedCursorKeySequences | src/tty/unix.rs:107-127 | `[1;3X` gives the cursor key with Alt and `[1;5X` the cursor key with Ctrl, consuming 5 characters |
| EscapeFamilies.UnknownCursorFinal | src/tty/unix.rs:107-172 | Any other final character on a cursor-key path gives `Unknown`, consuming it and nothing after |
| EscapeFamilies.UnknownModifier | src/tty/unix.rs:109-128 | `[1;` followed by anything but 3 or 5 gives `Unknown` after 4 characters |
| EscapeFamilies.TildeSequences | src/tty/unix.rs:130-156 | `[1~`,`[7~` give Home, `[3~` Delete, `[4~`,`[8~` End, `[5~` PageUp, `[6~` PageDown |
| EscapeFamilies.UnknownAfterTildeDigit | src/tty/unix.rs:130-156 | A tilde-family digit followed by anything but `~` gives `Unknown` after 3 characters (except `[1;`, which continues) |
| EscapeFamilies.MetaLetters | src/tty/unix.rs:177-184 | b, c, d, f, l, t, u, y in either case give the upper-case letter with Alt, consuming 1 character |
| EscapeFamilies.MetaSymbols | src/tty/unix.rs:174-185 | `<`, `>`, 0x08 and 0x7F give the same character with Alt |
| EscapeFamilies.UnknownFirst | src/tty/unix.rs:186-189 | Every other first character gives `Unknown` after consuming just that character |
| Reader.NextKey | src/tty/unix.rs:195-215 | A key consumes at least one and at most 6 characters; it fails only with the stream's end condition or with the poll's error |
| Reader.PlainKey | src/tty/unix.rs:196-199 | A character that does not map to Esc is returned as its mapped key after consuming one character |
| Reader.LoneEscape | src/tty/unix.rs:199-205 | An Esc with no more input ready is a lone Esc; nothing more is consumed |
| Reader.EscapeSequence | src/tty/unix.rs:206-209 | An Esc with input ready gives the resolver's key, having consumed the ESC and the resolved sequence, or the resolver's error |
| Reader.PollError | src/tty/unix.rs:210-211 | A failed poll after an Esc is returned as an error |
| Reader.Decode | src/tty/unix.rs:195-215 | Repeated `next_key` calls yield at most one key per character and stop only on the stream's end condition or the error of the poll made after a character that maps to Esc, at one of the remaining positions |
| Reader.DecodeOneKeyPerChar | src/tty/unix.rs:195-215 | Without characters mapping to Esc, decoding yields exactly one key per character, each that character's mapping, then the end condition |
| Reader.ResumesAfterSequence | src/tty/unix.rs:195-215 | After an escape sequence, decoding resumes at the first character the resolver did not examine |
| Reader.UnknownSequenceExample | src/tty/unix.rs:107-163 | ESC `[99` gives `Unknown` for `[9`, then the second `9` as a key of its own |
| Reader.LoneEscapeExample | src/tty/unix.rs:199-205 | A lone ESC at the end of input, with nothing ready, is exactly one Esc key |
| StdinRaw.ReadRetrying | src/tty/unix.rs:74-90 | Interrupted reads are retried and never reported; the first other outcome is reported (bytes read, or the error), after exactly the calls up to it |
| RawMode.MakeRaw | src/tty/unix.rs:300-311 | Raw attributes clear BRKINT, ICRNL, INPCK, ISTRIP and IXON, set CS8, clear ECHO, ICANON, IEXTEN and ISIG, and set VMIN 1 and VTIME 0; every other bit, `oflag` and every other control character are kept |
| RawMode.MakeRawIsRaw | src/tty/unix.rs:302-311 | The derived attributes are raw, and deriving raw mode twice equals deriving it once |
| RawMode.RawIsFixedPoint | src/tty/unix.rs:302-311 | Attributes are raw exactly when the derivation leaves them unchanged |
| RawMode.EnableRawMode | src/tty/unix.rs:293-314 | A non-tty input fails with ENOTTY, with no driver call and no change; a failing `tcgetattr` returns its errno after that one call; otherwise `tcsetattr` is called with the raw derivation of the attributes, and its failure returns its errno; success needs both calls to succeed, returns the original attributes and leaves the terminal raw; a failure leaves the attributes unchanged |
| RawMode.DisableRawMode | src/tty/unix.rs:63-66 | Restoring applies the saved mode with one `tcsetattr` call; on success the terminal holds it, and on failure that call's errno is returned and the attributes are taken to be unchanged |
| RawMode.RawModeRoundTrip | src/tty/unix.rs:293-314 | Entering raw mode and then restoring the returned mode gives back the original attributes |
| RawMode.RawModeChangesCookedTerminal | src/tty/unix.rs:302-312 | Entering raw mode changes the attributes of any terminal not already raw |
| Resize.Notify | src/tty/unix.rs:238-240 | The handler leaves the flag set |
| Resize.Poll | src/tty/unix.rs:322-324 | `sigwinch` returns the flag's previous value and always leaves it clear |
| Resize.Run | src/tty/unix.rs:322-324 | Running a sequence of signals and polls gives an answer exactly at each poll |
| Resize.PollReportsChangeSinceLastPoll | src/tty/unix.rs:322-324 | A poll answers true exactly when a window change was signalled after the previous poll; any number of changes collapse into one answer |
| Resize.QuietUntilFirstChange | src/tty/unix.rs:227 | The flag starts clear (`ATOMIC_BOOL_INIT`), so every poll that no window change precedes answers false |
| Resize.ChangeIsReportedOnce | src/tty/unix.rs:322-324 | After a window change the next poll answers true and every further poll false |
| Terminal.EqIgnoreAsciiCaseIsLowercaseEq | src/tty/unix.rs:43 | Case-insensitive ASCII comparison is equality after ASCII lower-casing |
| Terminal.IsUnsupportedTerm | src/tty/unix.rs:38-51 | True exactly when TERM is set and, lower-cased, is one of dumb, cons25, emacs; an unset variable gives false |
| Terminal.UnsupportedTermCases | src/tty/unix.rs:336-343 | TERM=`xterm` is supported and TERM=`dumb` is not, as the module's own test expects; `DUMB` and `Emacs` are also unsupported and an unset TERM is supported |
| Terminal.NewTerminal | src/tty/unix.rs:254-263 | Records the deny-list verdict and stdin's interactivity; the handler is installed exactly for a supported type with stdin and stdout on a tty |
| Terminal.GetWinSize | src/tty/unix.rs:24-34 | The reported size when the ioctl succeeds, 80 columns by 24 rows otherwise |

## Left out

- `char_to_key_press` in `consts.rs` is not part of this model. It is the parameter `toKey`, and only its result being Esc matters to dispatch.
- UTF-8 decoding by `char_iter` is not part of this model. The input is already a sequence of characters, and a decoding error is the stream's `end` value `Decoding`.
- Installing the signal handler (`sigaction` under `sync::Once`) is left out. It is OS registration, and only the sequential flag logic is modelled.
- The system calls `read`, `poll`, `ioctl(TIOCGWINSZ)`, `isatty`, `tcgetattr` and `tcsetattr` are left out. Their outcomes are parameters.
- The poll timeout `timeout_ms` is left out. The poll outcome already reflects it.
- `clear_screen` is left out. It only writes a fixed string to a foreign writer and flushes it.
- `create_reader`, `is_unsupported`, `is_stdin_tty`, `get_columns` and `get_rows` have no separate members. They construct a reader, read a field of `PosixTerminal`, or take one half of `GetWinSize`.
- RawMode.EnableRawMode: assumes a failing `tcsetattr` leaves the attributes unchanged, and that a successful one applies every requested change. POSIX lets `tcsetattr` fail, or report success, after a partial change, and the code does not re-read the attributes to check.
- RawMode.DisableRawMode: assumes a failing `tcsetattr` leaves the attributes unchanged, and that a successful one applies every requested change. POSIX lets `tcsetattr` fail, or report success, after a partial change, and the code does not re-read the attributes to check.
- RawMode.RawModeRoundTrip: holds for the modelled driver, which applies every change a successful `tcsetattr` requests. It inherits the assumption stated above for `EnableRawMode` and `DisableRawMode`.
- RawMode.Call: does not record the `TCSADRAIN` action of `tcsetattr`, which waits for pending output to drain before the change. Every call in the source uses it, and the model has no output queue.
- RawMode.Termios: models only the four flag words and the control characters. The line discipline and speed fields are never touched by the source.
- Termios bit values, `NCCS`, `VMIN`, `VTIME` and `ENOTTY` are the Linux ones. Other Unix systems use other numbers.

=== FILE: errors.dfy ===
/** Error and result types shared by the terminal model.

    The Rust code funnels every failure into one `ReadlineError`; the model keeps
    the four kinds the Unix backend can produce. */
module Errors {

  /** Why an operation did not produce a value. */
  datatype Error =
    | Eof              // the input stream is closed
    | Io(code: int)    // a failed read(2) on standard input, carrying its errno
    | Errno(code: int) // a failed nix call (poll, tcgetattr, tcsetattr), carrying its errno
    | Decoding         // the bytes read from standard input are not valid UTF-8

  /** Either a value or the error that prevented it. */
  datatype Result<+T> = Ok(value: T) | Err(error: Error) {
    predicate IsFailure() {
      Err?
    }

    function PropagateFailure<U>(): Result<U>
      requires Err?
    {
      Err(error)
    }

    function Extract(): T
      requires Ok?
    {
      value
    }
  }

  /** A value that may be absent, such as an unset environment variable. */
  datatype Option<+T> = None | Some(value: T)

  /** Linux errno for "inappropriate ioctl for device", used when stdin is not a terminal. */
  const ENOTTY: int := 25
}

=== FILE: escape.dfy ===
/** The escape-sequence resolver of `PosixRawReader::escape_sequence`.

    After an ESC has been read and more input is known to be ready, the reader
    matches the following characters against a fixed decision tree. Each level
    reads one more character; a character that fits no branch ends the match
    with `Unknown`, and running out of input ends it with whatever the stream
    reports at its end (`Eof`, the read error, or `Decoding`). The resolver never backtracks:
    the count it returns is exactly the number of characters it looked at. */
module Escape {
  import opened Errors
  import opened Keys

  /** The longest sequence the resolver examines after ESC, `[1;3A`. */
  const MaxSequence: nat := 5

  /** The named key selected by the final character of an arrow/Home/End sequence. */
  function FinalKey(c: char): Option<Key> {
    match c
    case 'A' => Some(Up)
    case 'B' => Some(Down)
    case 'C' => Some(Right)
    case 'D' => Some(Left)
    case 'F' => Some(End)
    case 'H' => Some(Home)
    case _ => None
  }

  /** Reads the final character at `s[i]` of an arrow/Home/End sequence with the given modifiers. */
  function Final(s: seq<char>, i: nat, ctrl: bool, alt: bool, end: Error): (r: Result<(KeyPress, nat)>)
    ensures r.Ok? ==> r.value.1 == i + 1 <= |s|
    ensures r.Err? <==> |s| <= i
  {
    if |s| <= i then Err(end)
    else match FinalKey(s[i])
      case Some(k) => Ok((KeyPress(k, ctrl, alt), i + 1))
      case None => Ok((UnknownKey, i + 1))
  }

  /** Reads the `~` that must close a `[<digit>~` sequence at `s[i]`. */
  function Tilde(s: seq<char>, i: nat, k: Key, end: Error): (r: Result<(KeyPress, nat)>)
    ensures r.Ok? ==> r.value.1 == i + 1 <= |s|
    ensures r.Err? <==> |s| <= i
  {
    if |s| <= i then Err(end)
    else if s[i] == '~' then Ok((Plain(k), i + 1))
    else Ok((UnknownKey, i + 1))
  }

  /** The CSI branch: `s[0]` is `[`. */
  function Csi(s: seq<char>, end: Error): (r: Result<(KeyPress, nat)>)
    requires |s| >= 1
    ensures r.Ok? ==> 2 <= r.value.1 <= MaxSequence && r.value.1 <= |s|
    ensures r.Err? ==> r.error == end && |s| < MaxSequence
  {
    if |s| < 2 then Err(end)
    else match s[1]
      case '1' =>
        if |s| < 3 then Err(end)
        else (match s[2]
          case ';' =>
            if |s| < 4 then Err(end)
            else (match s[3]
              case '3' => Final(s, 4, false, true, end)
              case '5' => Final(s, 4, true, false, end)
              case _ => Ok((UnknownKey, 4)))
          case '~' => Ok((Plain(Home), 3))
          case _ => Ok((UnknownKey, 3)))
      case '3' => Tilde(s, 2, Delete, end)
      case '4' => Tilde(s, 2, End, end)
      case '5' => Tilde(s, 2, PageUp, end)
      case '6' => Tilde(s, 2, PageDown, end)
      case '7' => Tilde(s, 2, Home, end)
      case '8' => Tilde(s, 2, End, end)
      case _ => Final(s, 1, false, false, end)
  }

  /** Resolves the characters following an ESC into a key press and the number
      of characters consumed, or the stream's end condition if it runs out first. */
  function Resolve(s: seq<char>, end: Error): (r: Result<(KeyPress, nat)>)
    ensures r.Ok? ==> 1 <= r.value.1 <= MaxSequence && r.value.1 <= |s|
    ensures r.Err? ==> r.error == end && |s| < MaxSequence
  {
    if |s| == 0 then Err(end)
    else match s[0]
      case '[' => Csi(s, end)
      case 'O' => Final(s, 1, false, false, end)
      case '\U{8}' => Ok((WithAlt(Char('\U{8}')), 1))
      case '<' => Ok((WithAlt(Char('<')), 1))
      case '>' => Ok((WithAlt(Char('>')), 1))
      case 'b' | 'B' => Ok((WithAlt(Char('B')), 1))
      case 'c' | 'C' => Ok((WithAlt(Char('C')), 1))
      case 'd' | 'D' => Ok((WithAlt(Char('D')), 1))
      case 'f' | 'F' => Ok((WithAlt(Char('F')), 1))
      case 'l' | 'L' => Ok((WithAlt(Char('L')), 1))
      case 't' | 'T' => Ok((WithAlt(Char('T')), 1))
      case 'u' | 'U' => Ok((WithAlt(Char('U')), 1))
      case 'y' | 'Y' => Ok((WithAlt(Char('Y')), 1))
      case '\U{7F}' => Ok((WithAlt(Char('\U{7F}')), 1))
      case _ => Ok((UnknownKey, 1))
  }
}

=== FILE: escape_families.dfy ===
/** The families of escape sequences, stated key by key.

    Each lemma fixes the characters after ESC and lets anything follow; the
    count in the result shows that what follows is never consumed. */
module EscapeFamilies {
  import opened Errors
  import opened Keys
  import opened Escape

  /** `[X` and `OX` name the cursor keys. */
  lemma CursorKeySequences(rest: seq<char>, end: Error)
    ensures Resolve("[A" + rest, end) == Ok((Plain(Up), 2))
    ensures Resolve("[B" + rest, end) == Ok((Plain(Down), 2))
    ensures Resolve("[C" + rest, end) == Ok((Plain(Right), 2))
    ensures Resolve("[D" + rest, end) == Ok((Plain(Left), 2))
    ensures Resolve("[F" + rest, end) == Ok((Plain(End), 2))
    ensures Resolve("[H" + rest, end) == Ok((Plain(Home), 2))
    ensures Resolve("OA" + rest, end) == Ok((Plain(Up), 2))
    ensures Resolve("OB" + rest, end) == Ok((Plain(Down), 2))
    ensures Resolve("OC" + rest, end) == Ok((Plain(Right), 2))
    ensures Resolve("OD" + rest, end) == Ok((Plain(Left), 2))
    ensures Resolve("OF" + rest, end) == Ok((Plain(End), 2))
    ensures Resolve("OH" + rest, end) == Ok((Plain(Home), 2))
  {
  }

  /** `[1;3X` is the cursor key with Alt, `[1;5X` the cursor key with Ctrl. */
  lemma ModifiedCursorKeySequences(rest: seq<char>, end: Error)
    ensures Resolve("[1;3A" + rest, end) == Ok((WithAlt(Up), 5))
    ensures Resolve("[1;3B" + rest, end) == Ok((WithAlt(Down), 5))
    ensures Resolve("[1;3C" + rest, end) == Ok((WithAlt(Right), 5))
    ensures Resolve("[1;3D" + rest, end) == Ok((WithAlt(Left), 5))
    ensures Resolve("[1;3F" + rest, end) == Ok((WithAlt(End), 5))
    ensures Resolve("[1;3H" + rest, end) == Ok((WithAlt(Home), 5))
    ensures Resolve("[1;5A" + rest, end) == Ok((WithCtrl(Up), 5))
    ensures Resolve("[1;5B" + rest, end) == Ok((WithCtrl(Down), 5))
    ensures Resolve("[1;5C" + rest, end) == Ok((WithCtrl(Right), 5))
    ensures Resolve("[1;5D" + rest, end) == Ok((WithCtrl(Left), 5))
    ensures Resolve("[1;5F" + rest, end) == Ok((WithCtrl(End), 5))
    ensures Resolve("[1;5H" + rest, end) == Ok((WithCtrl(Home), 5))
  {
  }

  /** Any other final character on a cursor-key path gives `Unknown`, having
      consumed that character and nothing after it. */
  lemma UnknownCursorFinal(c: char, rest: seq<char>, end: Error)
    requires c !in "ABCDFH"
    ensures Resolve(['O', c] + rest, end) == Ok((UnknownKey, 2))
    ensures Resolve("[1;3" + [c] + rest, end) == Ok((UnknownKey, 5))
    ensures Resolve("[1;5" + [c] + rest, end) == Ok((UnknownKey, 5))
    ensures c !in "1345678" ==> Resolve(['[', c] + rest, end) == Ok((UnknownKey, 2))
  {
    assert ("[1;3" + [c] + rest)[4] == c;
    assert ("[1;5" + [c] + rest)[4] == c;
  }

  /** `[1;` followed by anything but 3 or 5 gives `Unknown`. */
  lemma UnknownModifier(c: char, rest: seq<char>, end: Error)
    requires c != '3' && c != '5'
    ensures Resolve("[1;" + [c] + rest, end) == Ok((UnknownKey, 4))
  {
    assert ("[1;" + [c] + rest)[3] == c;
  }

  /** `[<digit>~` names the editing keys. */
  lemma TildeSequences(rest: seq<char>, end: Error)
    ensures Resolve("[1~" + rest, end) == Ok((Plain(Home), 3))
    ensures Resolve("[3~" + rest, end) == Ok((Plain(Delete), 3))
    ensures Resolve("[4~" + rest, end) == Ok((Plain(End), 3))
    ensures Resolve("[5~" + rest, end) == Ok((Plain(PageUp), 3))
    ensures Resolve("[6~" + rest, end) == Ok((Plain(PageDown), 3))
    ensures Resolve("[7~" + rest, end) == Ok((Plain(Home), 3))
    ensures Resolve("[8~" + rest, end) == Ok((Plain(End), 3))
  {
  }

  /** A digit of the tilde family followed by anything but `~` gives `Unknown`
      (after `[1`, a `;` instead opens the modified cursor keys). */
  lemma UnknownAfterTildeDigit(d: char, c: char, rest: seq<char>, end: Error)
    requires d in "1345678" && c != '~' && !(d == '1' && c == ';')
    ensures Resolve(['[', d, c] + rest, end) == Ok((UnknownKey, 3))
  {
  }

  /** The upper-case form of an ASCII lower-case letter. */
  function AsciiUpper(c: char): char
    requires 'a' <= c <= 'z'
  {
    (c as int - 32) as char
  }

  /** ESC followed by one of b, c, d, f, l, t, u, y in either case is that
      letter, in upper case, with Alt. */
  lemma MetaLetters(c: char, rest: seq<char>, end: Error)
    requires c in "bcdfltuy"
    ensures Resolve([c] + rest, end) == Ok((WithAlt(Char(AsciiUpper(c))), 1))
    ensures Resolve([AsciiUpper(c)] + rest, end) == Ok((WithAlt(Char(AsciiUpper(c))), 1))
  {
  }

  /** ESC followed by `<`, `>`, backspace (0x08) or delete (0x7F) is that character with Alt. */
  lemma MetaSymbols(c: char, rest: seq<char>, end: Error)
    requires c in "<>\U{8}\U{7F}"
    ensures Resolve([c] + rest, end) == Ok((WithAlt(Char(c)), 1))
  {
  }

  /** Any other first character gives `Unknown` after consuming only that character. */
  lemma UnknownFirst(c: char, rest: seq<char>, end: Error)
    requires c !in "[O<>\U{8}\U{7F}bBcCdDfFlLtTuUyY"
    ensures Resolve([c] + rest, end) == Ok((UnknownKey, 1))
  {
  }
}

=== FILE: escape_table.dfy ===
/** A table-driven reading of the escape-sequence resolver.

    The nested matches of `escape_sequence` are equivalent to walking a table
    of recognised sequences: keep reading while the characters read so far are
    a proper prefix of some entry, stop with the entry's key when they spell an
    entry, and stop with `Unknown` as soon as they can no longer lead to one. */
module EscapeTable {
  import opened Errors
  import opened Keys
  import opened Escape

  /** Final characters of the cursor-key sequences and the keys they name. */
  const CursorFinals: map<char, Key> :=
    map['A' := Up, 'B' := Down, 'C' := Right, 'D' := Left, 'F' := End, 'H' := Home]

  /** Digits of the `[<digit>~` editing-key sequences and the keys they name. */
  const TildeDigits: map<char, Key> :=
    map['1' := Home, '3' := Delete, '4' := End, '5' := PageUp, '6' := PageDown, '7' := Home, '8' := End]

  /** Meta chords, ESC followed by one character, and the character reported with Alt.
      Letters are reported in upper case whichever case was typed. */
  const MetaChords: map<char, char> := map[
    '\U{8}' := '\U{8}', '\U{7F}' := '\U{7F}', '<' := '<', '>' := '>',
    'b' := 'B', 'B' := 'B', 'c' := 'C', 'C' := 'C', 'd' := 'D', 'D' := 'D',
    'f' := 'F', 'F' := 'F', 'l' := 'L', 'L' := 'L', 't' := 'T', 'T' := 'T',
    'u' := 'U', 'U' := 'U', 'y' := 'Y', 'Y' := 'Y'
  ]

  /** The recognised sequences after ESC, one row per family:
      `[X` and `OX`, `[1;3X` (Alt), `[1;5X` (Ctrl), `[d~`, and a single meta-chord character.
      Returns the key press the sequence `p` denotes, or `None` if `p` is not recognised. */
  function Lookup(p: string): Option<KeyPress> {
    if |p| == 1 && p[0] in MetaChords then Some(WithAlt(Char(MetaChords[p[0]])))
    else if |p| == 2 && (p[0] == '[' || p[0] == 'O') && p[1] in CursorFinals then
      Some(Plain(CursorFinals[p[1]]))
    else if |p| == 3 && p[0] == '[' && p[1] in TildeDigits && p[2] == '~' then
      Some(Plain(TildeDigits[p[1]]))
    else if |p| == 5 && p[..4] == "[1;3" && p[4] in CursorFinals then
      Some(WithAlt(CursorFinals[p[4]]))
    else if |p| == 5 && p[..4] == "[1;5" && p[4] in CursorFinals then
      Some(WithCtrl(CursorFinals[p[4]]))
    else None
  }

  /** The proper prefixes of the table's sequences: after reading one of these
      the resolver has to read on. */
  const Pending: set<string> :=
    {"", "[", "O", "[1", "[1;", "[1;3", "[1;5", "[3", "[4", "[5", "[6", "[7", "[8"}

  /** Walks `s` from position `n`, one character at a time, through the table. */
  function Walk(s: seq<char>, end: Error, n: nat): (r: Result<(KeyPress, nat)>)
    requires n <= |s|
    decreases |s| - n
    ensures r.Ok? ==> n < r.value.1 <= |s|
    ensures r.Err? ==> r.error == end
  {
    if n == |s| then Err(end)
    else if Lookup(s[..n + 1]).Some? then Ok((Lookup(s[..n + 1]).value, n + 1))
    else if s[..n + 1] in Pending then Walk(s, end, n + 1)
    else Ok((UnknownKey, n + 1))
  }

  /** The table-driven resolver. */
  function TableResolve(s: seq<char>, end: Error): Result<(KeyPress, nat)> {
    Walk(s, end, 0)
  }

  /** `Pending` holds exactly the proper prefixes of recognised sequences. */
  lemma PendingIsProperPrefixes(p: string)
    ensures p in Pending <==> exists q :: Lookup(q).Some? && |p| < |q| && q[..|p|] == p
  {
    if p in Pending {
      var q := PendingCompletion(p);
      assert q[..|p|] == p;
    }
    if q :| Lookup(q).Some? && |p| < |q| && q[..|p|] == p {
      ProperPrefixIsPending(q, |p|);
    }
  }

  /** A recognised sequence that extends the pending prefix `p` by one step. */
  function PendingCompletion(p: string): (q: string)
    requires p in Pending
    ensures Lookup(q).Some? && |p| < |q| && q[..|p|] == p
  {
    if p == "" then "b"
    else if p == "[" || p == "O" then p + "A"
    else if p == "[1;" then "[1;3A"
    else if p == "[1;3" || p == "[1;5" then p + "A"
    else p + "~"
  }

  lemma ProperPrefixIsPending(q: string, i: nat)
    requires Lookup(q).Some? && i < |q|
    ensures q[..i] in Pending
  {
    if i == 0 {
      assert q[..i] == "";
    } else if i == 1 {
      assert q[..i] == [q[0]];
    } else if |q| == 5 {
      assert q[..4] == "[1;3" || q[..4] == "[1;5";
      assert q[..i] == q[..4][..i];
      assert i == 2 ==> q[..i] == "[1";
      assert i == 3 ==> q[..i] == "[1;";
    } else {
      assert |q| == 3 && i == 2 && q[..i] == ['[', q[1]];
    }
  }

  /** No recognised sequence is a prefix of a pending one: the table is prefix-free. */
  lemma PendingHasNoEntry(p: string, i: nat)
    requires p in Pending && i <= |p|
    ensures Lookup(p[..i]) == None && p[..i] in Pending
  {
    if i < |p| {
      var q := PendingCompletion(p);
      assert p[..i] == q[..i];
      ProperPrefixIsPending(q, i);
    } else {
      assert p[..i] == p;
    }
    PendingIsNotEntry(p[..i]);
  }

  lemma PendingIsNotEntry(p: string)
    requires p in Pending
    ensures Lookup(p) == None
  {
    if |p| == 5 {
      assert false;
    } else if |p| == 3 {
      assert p[2] == ';';
    } else if |p| == 2 {
      assert p[0] == '[';
      assert p[1] !in CursorFinals;
    } else if |p| == 1 {
      assert p[0] !in MetaChords;
    }
  }

  lemma ResolveIsTableDriven(s: seq<char>, end: Error)
    ensures Resolve(s, end) == TableResolve(s, end)
  {
    if |s| == 0 {
      return;
    }
    if s[0] == '[' {
      CsiIsTableDriven(s, end);
    } else if s[0] == 'O' {
      Ss3IsTableDriven(s, end);
    } else {
      SingleIsTableDriven(s, end);
    }
  }

  lemma SingleIsTableDriven(s: seq<char>, end: Error)
    requires |s| >= 1 && s[0] != '[' && s[0] != 'O'
    ensures Resolve(s, end) == Walk(s, end, 0)
  {
    assert s[..1] == [s[0]];
    assert [s[0]] !in Pending;
  }

  lemma Ss3IsTableDriven(s: seq<char>, end: Error)
    requires |s| >= 1 && s[0] == 'O'
    ensures Resolve(s, end) == Walk(s, end, 0)
  {
    assert s[..1] == "O";
    PendingIsNotEntry("O");
    assert Walk(s, end, 0) == Walk(s, end, 1);
    if |s| >= 2 {
      Ss3FinalIsTableDriven(s, end);
    }
  }

  lemma Ss3FinalIsTableDriven(s: seq<char>, end: Error)
    requires |s| >= 2 && s[0] == 'O'
    ensures Resolve(s, end) == Walk(s, end, 1)
  {
    assert s[..2] == ['O', s[1]];
    assert s[..2] !in Pending;
  }

  lemma CsiIsTableDriven(s: seq<char>, end: Error)
    requires |s| >= 1 && s[0] == '['
    ensures Resolve(s, end) == Walk(s, end, 0)
  {
    assert s[..1] == "[";
    if |s| < 2 {
      return;
    }
    assert s[..2] == ['[', s[1]];
    assert Walk(s, end, 0) == Walk(s, end, 1);
    if s[1] == '1' {
      assert Walk(s, end, 1) == Walk(s, end, 2);
      if |s| >= 3 {
        CsiOneIsTableDriven(s, end);
      }
    } else if s[1] in TildeDigits {
      CsiTildeIsTableDriven(s, end);
    } else {
      CsiFinalIsTableDriven(s, end);
    }
  }

  lemma CsiTildeIsTableDriven(s: seq<char>, end: Error)
    requires |s| >= 2 && s[0] == '[' && s[1] != '1' && s[1] in TildeDigits
    ensures Resolve(s, end) == Walk(s, end, 1)
  {
    assert s[..2] == ['[', s[1]];
    assert s[..2] in Pending;
    PendingIsNotEntry(s[..2]);
    assert Walk(s, end, 1) == Walk(s, end, 2);
    if |s| >= 3 {
      CsiTildeCloseIsTableDriven(s, end);
    }
  }

  lemma CsiTildeCloseIsTableDriven(s: seq<char>, end: Error)
    requires |s| >= 3 && s[0] == '[' && s[1] != '1' && s[1] in TildeDigits
    ensures Resolve(s, end) == Walk(s, end, 2)
  {
    assert s[..3] == ['[', s[1], s[2]];
    if s[2] != '~' {
      assert s[..3] !in Pending;
    }
  }

  lemma CsiFinalIsTableDriven(s: seq<char>, end: Error)
    requires |s| >= 2 && s[0] == '[' && s[1] !in TildeDigits
    ensures Resolve(s, end) == Walk(s, end, 1)
  {
    assert s[..2] == ['[', s[1]];
    assert s[..2] !in Pending;
  }

  lemma CsiOneIsTableDriven(s: seq<char>, end: Error)
    requires |s| >= 3 && s[0] == '[' && s[1] == '1'
    ensures Resolve(s, end) == Walk(s, end, 2)
  {
    assert s[..3] == ['[', '1', s[2]];
    if s[2] == ';' {
      assert Walk(s, end, 2) == Walk(s, end, 3);
      if |s| >= 4 {
        CsiModifierIsTableDriven(s, end);
      }
    } else {
      assert s[..3] !in Pending;
    }
  }

  lemma CsiModifierIsTableDriven(s: seq<char>, end: Error)
    requires |s| >= 4 && s[..3] == "[1;"
    ensures Resolve(s, end) == Walk(s, end, 3)
  {
    assert s[..4] == ['[', '1', ';', s[3]];
    if s[3] == '3' || s[3] == '5' {
      assert Walk(s, end, 3) == Walk(s, end, 4);
      if |s| >= 5 {
        CsiModifiedFinalIsTableDriven(s, end);
      }
    } else {
      assert s[..4] !in Pending;
    }
  }

  lemma CsiModifiedFinalIsTableDriven(s: seq<char>, end: Error)
    requires |s| >= 5 && (s[..4] == "[1;3" || s[..4] == "[1;5")
    ensures Resolve(s, end) == Walk(s, end, 4)
  {
    assert s[..5][..4] == s[..4];
    assert s[0] == '[' && s[1] == '1' && s[2] == ';';
  }

  /** Walking stops on a recognised sequence as soon as it has read all of it. */
  lemma {:induction false} WalkReachesEntry(s: seq<char>, end: Error, n: nat, m: nat)
    requires n < m <= |s| && Lookup(s[..m]).Some?
    ensures Walk(s, end, n) == Ok((Lookup(s[..m]).value, m))
    decreases m - n
  {
    if n + 1 < m {
      var p := s[..m][..n + 1];
      assert p == s[..n + 1];
      ProperPrefixIsPending(s[..m], n + 1);
      PendingHasNoEntry(p, |p|);
      assert p[..|p|] == p;
      WalkReachesEntry(s, end, n + 1, m);
    } else {
      assert s[..n + 1] == s[..m];
    }
  }

  /** Where the walk stops: on a recognised sequence with its key, or with
      `Unknown` on the first character that leaves the pending prefixes. */
  lemma {:induction false} WalkMeaning(s: seq<char>, end: Error, n: nat)
    requires n <= |s| && s[..n] in Pending
    requires Walk(s, end, n).Ok?
    ensures var (k, m) := Walk(s, end, n).value;
      && s[..m - 1] in Pending
      && (|| Lookup(s[..m]) == Some(k)
          || (k == UnknownKey && Lookup(s[..m]) == None && s[..m] !in Pending))
    decreases |s| - n
  {
    var p := s[..n + 1];
    var found := Lookup(p);
    if found.Some? {
      assert Walk(s, end, n) == Ok((found.value, n + 1));
    } else if p in Pending {
      assert Walk(s, end, n) == Walk(s, end, n + 1);
      WalkMeaning(s, end, n + 1);
    } else {
      assert Walk(s, end, n) == Ok((UnknownKey, n + 1));
    }
  }

  /** The walk's outcome depends on the characters it consumed and on nothing else. */
  lemma {:induction false} WalkLooksOnlyAtConsumed(s: seq<char>, s': seq<char>, end: Error, end': Error, n: nat)
    requires n <= |s| && n <= |s'|
    requires Walk(s, end, n).Ok?
    requires Walk(s, end, n).value.1 <= |s'|
    requires s'[..Walk(s, end, n).value.1] == s[..Walk(s, end, n).value.1]
    ensures Walk(s', end', n) == Walk(s, end, n)
    decreases |s| - n
  {
    var m := Walk(s, end, n).value.1;
    assert s'[..n + 1] == s[..n + 1] by {
      assert s'[..n + 1] == s'[..m][..n + 1];
      assert s[..n + 1] == s[..m][..n + 1];
    }
    if Lookup(s[..n + 1]).None? && s[..n + 1] in Pending {
      WalkLooksOnlyAtConsumed(s, s', end, end', n + 1);
    }
  }

  /** Starting from a pending prefix, the walk runs out of input exactly when
      the whole input is still pending. */
  lemma {:induction false} WalkRunsOutOnPending(s: seq<char>, end: Error, n: nat)
    requires n <= |s| && s[..n] in Pending
    ensures Walk(s, end, n).Err? <==> s in Pending
    decreases |s| - n
  {
    if n == |s| {
      assert s[..n] == s;
    } else if s in Pending {
      PendingHasNoEntry(s, n + 1);
      WalkRunsOutOnPending(s, end, n + 1);
    } else if Lookup(s[..n + 1]).None? && s[..n + 1] in Pending {
      WalkRunsOutOnPending(s, end, n + 1);
    }
  }

  /** Every recognised sequence resolves to its key, consuming exactly the
      sequence, whatever follows it. */
  lemma ResolveRecognisesEveryEntry(p: string, rest: seq<char>, end: Error)
    requires Lookup(p).Some?
    ensures Resolve(p + rest, end) == Ok((Lookup(p).value, |p|))
  {
    ResolveIsTableDriven(p + rest, end);
    assert (p + rest)[..|p|] == p;
    WalkReachesEntry(p + rest, end, 0, |p|);
  }

  /** What a resolved key means: either the consumed characters spell a
      recognised sequence and the key is its entry, or they are a pending
      prefix followed by one character that leads nowhere, and the key is
      `Unknown`. */
  lemma ResolveMeaning(s: seq<char>, end: Error)
    requires Resolve(s, end).Ok?
    ensures var (k, n) := Resolve(s, end).value;
      || Lookup(s[..n]) == Some(k)
      || (k == UnknownKey && Lookup(s[..n]) == None && s[..n] !in Pending && s[..n - 1] in Pending)
  {
    ResolveIsTableDriven(s, end);
    assert s[..0] == "";
    WalkMeaning(s, end, 0);
  }

  /** The resolver reports the stream's end exactly when the input stops
      inside a recognised sequence; otherwise it yields a key, `Unknown` included. */
  lemma ResolveRunsOutOnlyMidSequence(s: seq<char>, end: Error)
    ensures Resolve(s, end).Err? <==> s in Pending
    ensures Resolve(s, end).Err? ==> Resolve(s, end).error == end
  {
    ResolveIsTableDriven(s, end);
    assert s[..0] == "";
    WalkRunsOutOnPending(s, end, 0);
  }

  /** The resolver consumes exactly the characters it examines: any input that
      agrees on them resolves the same way, whatever follows and however the
      stream ends. */
  lemma ResolveLooksOnlyAtConsumed(s: seq<char>, s': seq<char>, end: Error, end': Error)
    requires Resolve(s, end).Ok?
    requires Resolve(s, end).value.1 <= |s'|
    requires s'[..Resolve(s, end).value.1] == s[..Resolve(s, end).value.1]
    ensures Resolve(s', end') == Resolve(s, end)
  {
    ResolveIsTableDriven(s, end);
    ResolveIsTableDriven(s', end');
    WalkLooksOnlyAtConsumed(s, s', end, end', 0);
  }
}

=== FILE: keys.dfy ===
/** Key events produced by the decoder.

    A key press is a key together with the Ctrl and Alt modifier flags; a key is
    either a character or a named key from a fixed catalogue. */
module Keys {

  datatype Key =
    | Char(c: char)
    | Esc
    | Up
    | Down
    | Left
    | Right
    | Home
    | End
    | PageUp
    | PageDown
    | Delete
    | Unknown

  datatype KeyPress = KeyPress(key: Key, ctrl: bool, alt: bool)

  /** A key with no modifier. */
  function Plain(k: Key): KeyPress {
    KeyPress(k, false, false)
  }

  /** A key with the Alt (meta) modifier. */
  function WithAlt(k: Key): KeyPress {
    KeyPress(k, false, true)
  }

  /** A key with the Ctrl modifier. */
  function WithCtrl(k: Key): KeyPress {
    KeyPress(k, true, false)
  }

  const UnknownKey: KeyPress := Plain(Unknown)
  const EscKey: KeyPress := Plain(Esc)
}

=== FILE: raw_mode.dfy ===
/** Entering and leaving raw mode (`enable_raw_mode`, `disable_raw_mode`).

    A termios record is modelled with the Linux layouts: four 32-bit flag
    words (`tcflag_t`) and the 32-entry control-character array (`cc_t`). The
    terminal driver is reduced to the attributes it holds and to the outcomes
    of `tcgetattr`/`tcsetattr`, which are parameters. */
module RawMode {
  import opened Errors

  type Flags = bv32

  /** Number of control characters in a Linux termios record. */
  const NCCS: nat := 32

  type ControlChars = cc: seq<bv8> | |cc| == NCCS witness seq(NCCS, _ => 0)

  datatype Termios = Termios(iflag: Flags, oflag: Flags, cflag: Flags, lflag: Flags, cc: ControlChars)

  // Input modes.
  const BRKINT: Flags := 0x2
  const INPCK: Flags := 0x10
  const ISTRIP: Flags := 0x20
  const ICRNL: Flags := 0x100
  const IXON: Flags := 0x400
  // Control modes.
  const CS8: Flags := 0x30
  // Local modes.
  const ISIG: Flags := 0x1
  const ICANON: Flags := 0x2
  const ECHO: Flags := 0x8
  const IEXTEN: Flags := 0x8000
  // Indices into the control-character array.
  const VTIME: nat := 5
  const VMIN: nat := 6

  /** Input processing that raw mode turns off: break interrupts, CR-to-NL
      translation, parity checking, high-bit stripping and XON/XOFF flow control. */
  const RawInputOff: Flags := BRKINT | ICRNL | INPCK | ISTRIP | IXON
  /** Local processing that raw mode turns off: echo, canonical (line) mode,
      extended input processing and signal characters. */
  const RawLocalOff: Flags := ECHO | ICANON | IEXTEN | ISIG

  /** The raw-mode attributes derived from `m`. */
  function MakeRaw(m: Termios): (raw: Termios)
    ensures raw.iflag & RawInputOff == 0 && raw.iflag | RawInputOff == m.iflag | RawInputOff
    ensures raw.cflag & CS8 == CS8 && raw.cflag & !CS8 == m.cflag & !CS8
    ensures raw.lflag & RawLocalOff == 0 && raw.lflag | RawLocalOff == m.lflag | RawLocalOff
    ensures raw.oflag == m.oflag
    ensures raw.cc[VMIN] == 1 && raw.cc[VTIME] == 0
    ensures forall i :: 0 <= i < NCCS && i != VMIN && i != VTIME ==> raw.cc[i] == m.cc[i]
  {
    Termios(
      m.iflag & !RawInputOff,
      m.oflag,
      m.cflag | CS8,
      m.lflag & !RawLocalOff,
      m.cc[VMIN := 1][VTIME := 0])
  }

  /** Attributes already in raw mode, described flag by flag. */
  predicate IsRaw(m: Termios) {
    && m.iflag & BRKINT == 0 && m.iflag & ICRNL == 0 && m.iflag & INPCK == 0
    && m.iflag & ISTRIP == 0 && m.iflag & IXON == 0
    && m.cflag & CS8 == CS8
    && m.lflag & ECHO == 0 && m.lflag & ICANON == 0 && m.lflag & IEXTEN == 0 && m.lflag & ISIG == 0
    && m.cc[VMIN] == 1 && m.cc[VTIME] == 0
  }

  /** The derived attributes are raw, and deriving again changes nothing. */
  lemma MakeRawIsRaw(m: Termios)
    ensures IsRaw(MakeRaw(m))
    ensures MakeRaw(MakeRaw(m)) == MakeRaw(m)
  {
    var raw := MakeRaw(m);
    assert raw.cc[VMIN := 1][VTIME := 0] == raw.cc;
  }

  /** Raw attributes are exactly the fixed points of the derivation. */
  lemma RawIsFixedPoint(m: Termios)
    ensures IsRaw(m) <==> MakeRaw(m) == m
  {
    if IsRaw(m) {
      assert m.cc[VMIN := 1][VTIME := 0] == m.cc;
    }
    if MakeRaw(m) == m {
      MakeRawIsRaw(m);
    }
  }

  /** A call made on the terminal driver. Every `tcsetattr` of the source uses
      `TCSADRAIN`, so the action is not recorded. */
  datatype Call = GetAttr | SetAttr(mode: Termios)

  /** The result of a raw-mode operation: what it returns, the attributes the
      terminal holds afterwards and the driver calls it made, in order. */
  datatype Outcome<T> = Outcome(result: Result<T>, attrs: Termios, calls: seq<Call>)

  /** `enable_raw_mode`: `stdinIsatty` is the interactivity recorded when the
      terminal was opened, `attrs` the attributes the driver holds, and
      `getFails`/`setFails` the errno with which `tcgetattr`/`tcsetattr` fail,
      if they do. Returns the original attributes for later restoration. */
  function EnableRawMode(stdinIsatty: bool, attrs: Termios, getFails: Option<int>, setFails: Option<int>): (o: Outcome<Termios>)
    ensures !stdinIsatty ==> o == Outcome(Err(Errno(ENOTTY)), attrs, [])
    ensures o.result.Err? ==> o.attrs == attrs
    ensures o.result.Ok? <==> stdinIsatty && getFails.None? && setFails.None?
    ensures o.result.Ok? ==> o.result.value == attrs && o.attrs == MakeRaw(attrs) && IsRaw(o.attrs)
    ensures stdinIsatty ==> |o.calls| >= 1 && o.calls[0] == GetAttr
    ensures stdinIsatty && getFails.Some? ==> o == Outcome(Err(Errno(getFails.value)), attrs, [GetAttr])
    ensures stdinIsatty && getFails.None? ==>
      && o.calls == [GetAttr, SetAttr(MakeRaw(attrs))]
      && (setFails.Some? ==> o.result == Err(Errno(setFails.value)))
  {
    if !stdinIsatty then Outcome(Err(Errno(ENOTTY)), attrs, [])
    else match getFails
      case Some(e) => Outcome(Err(Errno(e)), attrs, [GetAttr])
      case None =>
        var original := attrs;
        var raw := MakeRaw(original);
        match setFails
        case Some(e) => Outcome(Err(Errno(e)), attrs, [GetAttr, SetAttr(raw)])
        case None =>
          MakeRawIsRaw(original);
          Outcome(Ok(original), raw, [GetAttr, SetAttr(raw)])
  }

  /** `disable_raw_mode`: re-applies a saved mode. */
  function DisableRawMode(saved: Termios, attrs: Termios, setFails: Option<int>): (o: Outcome<()>)
    ensures o.calls == [SetAttr(saved)]
    ensures o.result.Ok? <==> setFails.None?
    ensures o.result.Ok? ==> o.attrs == saved
    ensures o.result.Err? ==> o.attrs == attrs
    ensures setFails.Some? ==> o.result == Err(Errno(setFails.value))
  {
    match setFails
    case Some(e) => Outcome(Err(Errno(e)), attrs, [SetAttr(saved)])
    case None => Outcome(Ok(()), saved, [SetAttr(saved)])
  }

  /** Entering raw mode and then restoring the mode it returned gives back the
      terminal's original attributes. */
  lemma RawModeRoundTrip(attrs: Termios)
    ensures var entered := EnableRawMode(true, attrs, None, None);
      && entered.result.Ok?
      && DisableRawMode(entered.result.value, entered.attrs, None).attrs == attrs
  {
  }

  /** Raw mode really changes the terminal unless it was raw already. */
  lemma RawModeChangesCookedTerminal(attrs: Termios)
    requires !IsRaw(attrs)
    ensures EnableRawMode(true, attrs, None, None).attrs != attrs
  {
    RawIsFixedPoint(attrs);
  }
}

=== FILE: reader.dfy ===
/** Key dispatch of `PosixRawReader::next_key`, and the decode loop a caller
    runs on top of it.

    The reader's input is the sequence of characters still to come and `end`,
    what `next_char` reports once they are used up (`Eof` when the stream is
    closed, `Io` for a failed read, `Decoding` for bytes that are not UTF-8).
    The mapping `char_to_key_press` is a parameter
    `toKey`, and the readiness poll done after an ESC is an oracle value. */
module Reader {
  import opened Errors
  import opened Keys
  import opened Escape

  /** The outcome of polling standard input for readiness after an ESC. */
  datatype PollResult = Ready(count: nat) | PollFailed(errno: int)

  /** Reads one key: one character mapped by `toKey`; when that is Esc and
      more input is ready, the escape sequence that follows. Returns the key and
      the number of characters consumed. */
  function NextKey(s: seq<char>, end: Error, poll: PollResult, toKey: char -> KeyPress): (r: Result<(KeyPress, nat)>)
    ensures r.Ok? ==> 1 <= r.value.1 <= |s| && r.value.1 <= 1 + MaxSequence
    ensures r.Err? ==> r.error == end || (poll.PollFailed? && r.error == Errno(poll.errno))
  {
    if |s| == 0 then Err(end)
    else
      var key := toKey(s[0]);
      if key != EscKey then Ok((key, 1))
      else match poll
        case PollFailed(e) => Err(Errno(e))
        case Ready(n) =>
          if n == 0 then Ok((EscKey, 1))
          else
            var resolved :- Resolve(s[1..], end);
            Ok((resolved.0, 1 + resolved.1))
  }

  /** Decodes keys from position `pos` until the reader reports an error.
      `poll(i)` is the outcome of the readiness poll made after an ESC read at
      position `i`. Returns the keys and the error that stopped decoding. */
  function Decode(s: seq<char>, end: Error, poll: nat -> PollResult, toKey: char -> KeyPress, pos: nat): (r: (seq<KeyPress>, Error))
    requires pos <= |s|
    decreases |s| - pos
    ensures |r.0| <= |s| - pos
    ensures r.1 == end || (r.1.Errno? && exists i :: pos <= i < |s| && toKey(s[i]) == EscKey && poll(i) == PollFailed(r.1.code))
  {
    match NextKey(s[pos..], end, poll(pos), toKey)
    case Err(e) => ([], e)
    case Ok((k, n)) =>
      var more := Decode(s, end, poll, toKey, pos + n);
      ([k] + more.0, more.1)
  }

  /** A character that does not map to Esc is returned as its key, consuming one character. */
  lemma PlainKey(c: char, rest: seq<char>, end: Error, poll: PollResult, toKey: char -> KeyPress)
    requires toKey(c) != EscKey
    ensures NextKey([c] + rest, end, poll, toKey) == Ok((toKey(c), 1))
  {
  }

  /** An Esc with no more input ready is a lone Esc key; nothing more is consumed. */
  lemma LoneEscape(c: char, rest: seq<char>, end: Error, toKey: char -> KeyPress)
    requires toKey(c) == EscKey
    ensures NextKey([c] + rest, end, Ready(0), toKey) == Ok((EscKey, 1))
  {
  }

  /** An Esc with more input ready starts an escape sequence, resolved from the following characters. */
  lemma EscapeSequence(c: char, rest: seq<char>, end: Error, n: nat, toKey: char -> KeyPress)
    requires toKey(c) == EscKey && n > 0
    ensures NextKey([c] + rest, end, Ready(n), toKey)
      == match Resolve(rest, end)
         case Ok((k, m)) => Ok((k, 1 + m))
         case Err(e) => Err(e)
  {
    assert ([c] + rest)[1..] == rest;
  }

  /** A failed poll after an Esc is reported as that error. */
  lemma PollError(c: char, rest: seq<char>, end: Error, e: int, toKey: char -> KeyPress)
    requires toKey(c) == EscKey
    ensures NextKey([c] + rest, end, PollFailed(e), toKey) == Err(Errno(e))
  {
  }

  /** Without characters that map to Esc, decoding yields exactly one key per
      character, each the character's own mapping, and stops at the end of the stream. */
  lemma {:induction false} DecodeOneKeyPerChar(s: seq<char>, end: Error, poll: nat -> PollResult, toKey: char -> KeyPress, pos: nat)
    requires pos <= |s|
    requires forall i :: pos <= i < |s| ==> toKey(s[i]) != EscKey
    ensures Decode(s, end, poll, toKey, pos).1 == end
    ensures |Decode(s, end, poll, toKey, pos).0| == |s| - pos
    ensures forall i :: 0 <= i < |s| - pos ==> Decode(s, end, poll, toKey, pos).0[i] == toKey(s[pos + i])
    decreases |s| - pos
  {
    if pos < |s| {
      assert s[pos..][0] == s[pos];
      DecodeOneKeyPerChar(s, end, poll, toKey, pos + 1);
    }
  }

  /** After an escape sequence, decoding resumes at the first character the
      resolver did not examine, so a malformed or unknown sequence never costs
      the keys that follow it. */
  lemma ResumesAfterSequence(s: seq<char>, end: Error, poll: nat -> PollResult, toKey: char -> KeyPress, pos: nat)
    requires pos < |s| && toKey(s[pos]) == EscKey && poll(pos).Ready? && poll(pos).count > 0
    requires Resolve(s[pos + 1..], end).Ok?
    ensures var (k, m) := Resolve(s[pos + 1..], end).value;
      pos + 1 + m <= |s|
      && Decode(s, end, poll, toKey, pos).0 == [k] + Decode(s, end, poll, toKey, pos + 1 + m).0
  {
    assert s[pos..][1..] == s[pos + 1..];
  }

  /** ESC `[99` with input ready: the sequence is `Unknown` after `[9`, and the
      second `9` is decoded as a key of its own. */
  lemma UnknownSequenceExample(end: Error, poll: nat -> PollResult, toKey: char -> KeyPress)
    requires toKey('\U{1B}') == EscKey && toKey('9') != EscKey
    requires poll(0) == Ready(1)
    ensures Decode("\U{1B}[99", end, poll, toKey, 0).0 == [UnknownKey, toKey('9')]
    ensures Decode("\U{1B}[99", end, poll, toKey, 0).1 == end
  {
    var s := "\U{1B}[99";
    assert s[0..] == s && s[1..] == "[99";
    assert Resolve("[99", end) == Ok((UnknownKey, 2));
    assert NextKey(s[0..], end, poll(0), toKey) == Ok((UnknownKey, 3));
    assert s[3..] == "9" && s[4..] == "";
    assert NextKey(s[3..], end, poll(3), toKey) == Ok((toKey('9'), 1));
    assert Decode(s, end, poll, toKey, 4) == ([], end);
    assert Decode(s, end, poll, toKey, 3).0 == [toKey('9')] + [];
    assert Decode(s, end, poll, toKey, 0).0 == [UnknownKey] + [toKey('9')];
    assert Decode(s, end, poll, toKey, 0).1 == end;
  }

  /** A lone ESC with no more input arriving is exactly one Esc key. */
  lemma LoneEscapeExample(end: Error, poll: nat -> PollResult, toKey: char -> KeyPress)
    requires toKey('\U{1B}') == EscKey && poll(0) == Ready(0)
    ensures Decode("\U{1B}", end, poll, toKey, 0).0 == [EscKey]
    ensures Decode("\U{1B}", end, poll, toKey, 0).1 == end
  {
    var s := "\U{1B}";
    assert s[0..] == s && s[1..] == "";
    assert NextKey(s[0..], end, poll(0), toKey) == Ok((EscKey, 1));
    assert Decode(s, end, poll, toKey, 1) == ([], end);
    assert Decode(s, end, poll, toKey, 0).0 == [EscKey] + [];
    assert Decode(s, end, poll, toKey, 0).1 == end;
  }
}

=== FILE: resize.dfy ===
/** The window-change flag shared between the SIGWINCH handler and `sigwinch()`.

    The handler stores `true`; `sigwinch()` is a compare-and-swap of `true`
    for `false` that returns the value it found. Signal delivery is modelled as
    a sequence of events interleaved with the polls. */
module Resize {
  import opened Errors

  datatype ResizeFlag = ResizeFlag(pending: bool)

  /** The flag before any window change: `ATOMIC_BOOL_INIT` is false. */
  const Initial: ResizeFlag := ResizeFlag(false)

  /** The signal handler: records that the window may have changed. */
  function Notify(f: ResizeFlag): (f': ResizeFlag)
    ensures f'.pending
  {
    ResizeFlag(true)
  }

  /** `sigwinch()`: compare-and-swap `true` for `false`, returning the value
      found; the flag is never left set. */
  function Poll(f: ResizeFlag): (r: (bool, ResizeFlag))
    ensures r.0 == f.pending
    ensures !r.1.pending
  {
    if f.pending then (true, ResizeFlag(false)) else (false, f)
  }

  datatype Event = WindowChanged | Polled

  /** Runs `events` from flag `f`. The answer at index `k` is the value the poll
      at `events[k]` returned, or `None` where `events[k]` is a window change. */
  function Run(f: ResizeFlag, events: seq<Event>): (answers: seq<Option<bool>>)
    decreases |events|
    ensures |answers| == |events|
    ensures forall k :: 0 <= k < |events| ==> (answers[k].Some? <==> events[k] == Polled)
  {
    if events == [] then []
    else match events[0]
      case WindowChanged => [None] + Run(Notify(f), events[1..])
      case Polled => [Some(Poll(f).0)] + Run(Poll(f).1, events[1..])
  }

  /** No poll among `events[lo..hi]`. */
  predicate NoPollBetween(events: seq<Event>, lo: nat, hi: nat)
    requires lo <= hi <= |events|
  {
    forall i :: lo <= i < hi ==> events[i] != Polled
  }

  /** A window change occurred before index `k` with no poll after it, or the
      flag started `pending` and no poll came before `k`. */
  predicate SignalledSince(pending: bool, events: seq<Event>, k: nat)
    requires k <= |events|
  {
    || (exists j :: 0 <= j < k && events[j] == WindowChanged && NoPollBetween(events, j + 1, k))
    || (pending && NoPollBetween(events, 0, k))
  }

  /** Dropping the first event moves its effect into the starting flag. */
  lemma SignalledSinceShift(pending: bool, events: seq<Event>, k: nat)
    requires 0 < k <= |events|
    ensures SignalledSince(pending, events, k)
        == SignalledSince(events[0] == WindowChanged, events[1..], k - 1)
  {
    var tail := events[1..];
    if SignalledSince(pending, events, k) {
      if pending && NoPollBetween(events, 0, k) {
        assert events[0] != Polled;
        assert NoPollBetween(tail, 0, k - 1);
      } else {
        var j :| 0 <= j < k && events[j] == WindowChanged && NoPollBetween(events, j + 1, k);
        if j > 0 {
          assert tail[j - 1] == WindowChanged;
          assert NoPollBetween(tail, j, k - 1);
        } else {
          assert NoPollBetween(tail, 0, k - 1);
        }
      }
    }
    if SignalledSince(events[0] == WindowChanged, tail, k - 1) {
      if j :| 0 <= j < k - 1 && tail[j] == WindowChanged && NoPollBetween(tail, j + 1, k - 1) {
        assert events[j + 1] == WindowChanged;
        assert NoPollBetween(events, j + 2, k);
      } else {
        assert NoPollBetween(events, 1, k);
      }
    }
  }

  /** Each poll answers true exactly when a window change was signalled since
      the previous poll (or since the start), however many changes there were. */
  lemma {:induction false} PollReportsChangeSinceLastPoll(f: ResizeFlag, events: seq<Event>, k: nat)
    requires k < |events| && events[k] == Polled
    ensures Run(f, events)[k] == Some(SignalledSince(f.pending, events, k))
    decreases k
  {
    if k == 0 {
      assert NoPollBetween(events, 0, 0);
    } else {
      var f' := if events[0] == WindowChanged then Notify(f) else Poll(f).1;
      assert Run(f, events)[k] == Run(f', events[1..])[k - 1];
      PollReportsChangeSinceLastPoll(f', events[1..], k - 1);
      SignalledSinceShift(f.pending, events, k);
    }
  }

  /** Starting from the initial flag, a poll that no window change precedes
      answers false: the process does not start with a pending resize. */
  lemma QuietUntilFirstChange(events: seq<Event>, k: nat)
    requires k < |events| && events[k] == Polled
    requires forall i :: 0 <= i < k ==> events[i] != WindowChanged
    ensures Run(Initial, events)[k] == Some(false)
  {
    PollReportsChangeSinceLastPoll(Initial, events, k);
  }

  /** After a window change, the next poll answers true and every further
      poll answers false until the next change. */
  lemma ChangeIsReportedOnce(f: ResizeFlag, polls: nat)
    requires polls >= 1
    ensures var events := [WindowChanged] + seq(polls, _ => Polled);
      && Run(f, events)[1] == Some(true)
      && forall k :: 2 <= k < |events| ==> Run(f, events)[k] == Some(false)
  {
    var events := [WindowChanged] + seq(polls, _ => Polled);
    PollReportsChangeSinceLastPoll(f, events, 1);
    assert NoPollBetween(events, 1, 1);
    forall k | 2 <= k < |events|
      ensures Run(f, events)[k] == Some(false)
    {
      PollReportsChangeSinceLastPoll(f, events, k);
      assert events[1] == Polled;
    }
  }
}

=== FILE: stdin.dfy ===
/** `StdinRaw::read`: a read(2) on standard input that retries when the call
    is interrupted by a signal and reports every other outcome.

    The successive outcomes of the system call are an oracle sequence; the
    model consumes them until one is not an interruption. */
module StdinRaw {
  import opened Errors

  /** What one read(2) call reports. */
  datatype ReadOutcome =
    | Interrupted          // returned -1 with errno EINTR
    | Failed(errno: int)   // returned -1 with any other errno
    | Read(count: nat)     // returned the number of bytes read; 0 at end of file

  /** How a completed call is reported to the caller. */
  function Report(o: ReadOutcome): Result<nat>
    requires !o.Interrupted?
  {
    match o
    case Failed(e) => Err(Io(e))
    case Read(n) => Ok(n)
  }

  /** Issues read calls, whose outcomes are `calls` in order, until one is not
      interrupted. Returns its report and the number of calls made, or `None`
      if every call in `calls` was interrupted (the real loop keeps waiting). */
  method ReadRetrying(calls: seq<ReadOutcome>) returns (r: Option<Result<nat>>, made: nat)
    ensures made <= |calls|
    ensures forall i :: 0 <= i < |calls| && i < made - 1 ==> calls[i].Interrupted?
    ensures r.None? <==> forall i :: 0 <= i < |calls| ==> calls[i].Interrupted?
    ensures r.None? ==> made == |calls|
    ensures r.Some? ==> 1 <= made && !calls[made - 1].Interrupted? && r.value == Report(calls[made - 1])
  {
    made := 0;
    while made < |calls|
      invariant made <= |calls|
      invariant forall i :: 0 <= i < made ==> calls[i].Interrupted?
    {
      var outcome := calls[made];
      made := made + 1;
      if !outcome.Interrupted? {
        return Some(Report(outcome)), made;
      }
    }
    return None, made;
  }
}

=== FILE: terminal.dfy ===
/** The POSIX terminal facade: the deny-list of terminal types, construction
    of `PosixTerminal`, and the window-size query with its fallback. */
module Terminal {
  import opened Errors

  /** Terminal types that cannot support raw mode. */
  const UnsupportedTerms: seq<string> := ["dumb", "cons25", "emacs"]

  /** ASCII lower-casing of one character; everything outside `A`..`Z` is unchanged. */
  function AsciiLower(c: char): char {
    if 'A' <= c <= 'Z' then (c as int + 32) as char else c
  }

  /** ASCII lower-casing of a string. */
  function AsciiLowercase(s: string): (r: string)
    ensures |r| == |s|
    ensures forall i :: 0 <= i < |s| ==> r[i] == AsciiLower(s[i])
  {
    seq(|s|, i requires 0 <= i < |s| => AsciiLower(s[i]))
  }

  /** `str::eq_ignore_ascii_case`: same length and equal character by character
      after ASCII lower-casing. (On UTF-8 bytes this is the same test, since
      ASCII bytes never occur inside a multi-byte character.) */
  predicate EqIgnoreAsciiCase(a: string, b: string) {
    |a| == |b| && forall i :: 0 <= i < |a| ==> AsciiLower(a[i]) == AsciiLower(b[i])
  }

  lemma EqIgnoreAsciiCaseIsLowercaseEq(a: string, b: string)
    ensures EqIgnoreAsciiCase(a, b) <==> AsciiLowercase(a) == AsciiLowercase(b)
  {
    if AsciiLowercase(a) == AsciiLowercase(b) {
      assert forall i :: 0 <= i < |a| ==> AsciiLowercase(a)[i] == AsciiLowercase(b)[i];
    }
  }

  /** `is_unsupported_term`: whether the `TERM` variable, `None` when unset or not Unicode,
      names a deny-listed terminal in any ASCII case. */
  method IsUnsupportedTerm(term: Option<string>) returns (r: bool)
    ensures r <==> term.Some? && AsciiLowercase(term.value) in UnsupportedTerms
  {
    match term
    case None =>
      return false;
    case Some(t) =>
      var i := 0;
      while i < |UnsupportedTerms|
        invariant i <= |UnsupportedTerms|
        invariant forall j :: 0 <= j < i ==> !EqIgnoreAsciiCase(UnsupportedTerms[j], t)
      {
        if EqIgnoreAsciiCase(UnsupportedTerms[i], t) {
          DenyListIsLowercase(i);
          EqIgnoreAsciiCaseIsLowercaseEq(UnsupportedTerms[i], t);
          return true;
        }
        i := i + 1;
      }
      forall j | 0 <= j < |UnsupportedTerms|
        ensures UnsupportedTerms[j] != AsciiLowercase(t)
      {
        DenyListIsLowercase(j);
        EqIgnoreAsciiCaseIsLowercaseEq(UnsupportedTerms[j], t);
      }
      return false;
  }

  lemma DenyListIsLowercase(j: nat)
    requires j < |UnsupportedTerms|
    ensures AsciiLowercase(UnsupportedTerms[j]) == UnsupportedTerms[j]
  {
  }

  /** Concrete cases: `xterm` is supported and `dumb` is not, whatever its case;
      an unset variable and a mixed-case `Emacs` complete the picture. */
  method UnsupportedTermCases() returns (unset: bool, xterm: bool, dumb: bool, upper: bool, mixed: bool)
    ensures !unset && !xterm
    ensures dumb && upper && mixed
  {
    unset := IsUnsupportedTerm(None);
    xterm := IsUnsupportedTerm(Some("xterm"));
    assert AsciiLowercase("xterm") == "xterm";
    dumb := IsUnsupportedTerm(Some("dumb"));
    assert AsciiLowercase("dumb") == "dumb";
    upper := IsUnsupportedTerm(Some("DUMB"));
    assert AsciiLowercase("DUMB") == "dumb";
    mixed := IsUnsupportedTerm(Some("Emacs"));
    assert AsciiLowercase("Emacs") == "emacs";
  }

  /** The capabilities recorded once when the terminal is opened. */
  datatype PosixTerminal = PosixTerminal(unsupported: bool, stdinIsatty: bool)

  /** `PosixTerminal::new`: records the capabilities and decides whether the
      SIGWINCH handler is installed, which happens only for a supported
      terminal type with both standard input and standard output on a tty. */
  method NewTerminal(term: Option<string>, stdinIsatty: bool, stdoutIsatty: bool)
    returns (t: PosixTerminal, installHandler: bool)
    ensures t.unsupported <==> term.Some? && AsciiLowercase(term.value) in UnsupportedTerms
    ensures t.stdinIsatty == stdinIsatty
    ensures installHandler <==> !t.unsupported && stdinIsatty && stdoutIsatty
  {
    var unsupported := IsUnsupportedTerm(term);
    t := PosixTerminal(unsupported, stdinIsatty);
    installHandler := !t.unsupported && t.stdinIsatty && stdoutIsatty;
  }

  type U16 = x: nat | x < 0x1_0000

  /** A `winsize` as filled in by `ioctl(TIOCGWINSZ)`. */
  datatype WinSize = WinSize(col: U16, row: U16)

  const DefaultColumns: nat := 80
  const DefaultRows: nat := 24

  /** `get_win_size`: the size the driver reports when the ioctl returns 0,
      and 80 columns by 24 rows whenever it returns anything else. */
  function GetWinSize(ioctlResult: int, reported: WinSize): (size: (nat, nat))
    ensures ioctlResult == 0 ==> size == (reported.col as nat, reported.row as nat)
    ensures ioctlResult != 0 ==> size == (DefaultColumns, DefaultRows)
  {
    if ioctlResult == 0 then (reported.col as nat, reported.row as nat) else (DefaultColumns, DefaultRows)
  }
}
